=== FILE: README.md ===
# Event booking system: seat admission, event listing and event forms

This project models the logic inside the MVC controllers of an ASP.NET
event-booking application, as pure functions over an in-memory store, and
proves properties of it in Dafny.

- **Seat booking** (`BookingController`). A signed-in user books seats at an
  event. The seats still on sale are the event's `Capacity` minus the sum of
  `SeatCount` over **every** booking of the event. A request is refused when
  the posted booking fails its data annotations or the event does not exist.
  It is also refused when it asks for more seats than are available, and then
  the refusal reports the exact count left. Otherwise exactly one `Confirmed`
  booking is appended. The owner of a booking, or an administrator, may cancel
  it; that only sets its `Status` to `Cancelled`.
- **Event listing** (`EventController.Index`). A search filter over name,
  location and description comes first. Then a four-way sort selector, pages of
  ten, the total page count, and the links that toggle the sort order. A page
  number whose offset is negative makes the query fail.
- **Event forms** (`EventController.Create`/`Edit`, `Models/*`). The data
  annotations on `Booking`, `Event` and `EventViewModel` are validity
  predicates. Create and Edit copy eight fields from the form to the event.
  An uploaded image must pass an extension whitelist and a 5 MB limit.

The database is an immutable sequence of rows. Each action is a function from
the old sequence to an outcome and the new sequence. A booking `Create` is
assumed to be one atomic step (see "## Left out" for why the code does not
guarantee that). The clock, the signed-in user, the administrator flag and
the GUID of a stored image are parameters.

Modules: `Wrappers` (option/result), `Primitives` (32-bit `int`, the
`[Required]`/`[StringLength]` annotations, ordinal `Contains` and ordering,
identity keys), `BookingModel`, `EventModel`, `EventFormModel`,
`BookingController`, `EventListing`, `ImageUpload`, `EventEditing`.

## Cancelling frees no seats

The seat sum at BookingController.cs:71-73 adds up `SeatCount` over every
booking of the event and never reads `Status`. A cancelled booking therefore
keeps its seats. `BookingController.CancelKeepsBookedSeats` proves that a
cancel leaves every event's booked and available seats unchanged.

Three other things the booking code does not do:

- It has no "already cancelled" refusal: cancelling a second time answers
  the same as the first time (`BookingController.CancelIdempotent`).
- It has no inactive-event refusal: `Create` never reads `IsActive`.
- It has no compensating step when the insert fails.

## Other behaviour of the code

- `ModelState.IsValid` (BookingController.cs:55) already enforces
  `[Range(1, 1000)]` on `SeatCount`. The later `SeatCount <= 0` branch
  (lines 77-84) can therefore never be taken; `BookingController.Create`
  states this as a postcondition.
- The capacity fallback to 0 through reflection never applies, because
  `Event` declares `Capacity`. Capacity is simply the event's field.
- The page offset `(page - 1) * PageSize` at EventController.cs:68 is
  computed in 32-bit arithmetic. The database (SQL Server, Program.cs:13)
  refuses a negative `OFFSET`. So page 0, every negative page down to
  -214748363, and every page from 214748366 (where the product overflows) to
  429496730 make the query fail (`EventListing.OffsetErrorPages`).
- Each page is a separate query, sorted only by `Name` or `EventDate`
  (EventController.cs:48-70). Neither key is unique, and SQL Server does not
  promise to return tied rows in the same order on every request. With ties,
  a user paging through the list can see one event twice and miss another
  (`EventListing.TiesCanHideAnEvent`). Without ties there is only one sorted
  order, and every match appears on exactly the page the model computes
  (`EventListing.SortedPermutationUnique`,
  `EventListing.IndexListsEveryMatch`).

## Model

| member | source | states |
|---|---|---|
| `Primitives.Wrap32` | Controllers/EventController.cs:68 | unchecked `int` arithmetic: the result is in the `int` range and congruent to the exact value modulo 2^32; in-range values are kept and values up to 2^32 above the maximum lose exactly 2^32 |
| `Primitives.IsRequiredText` | Models/Event.cs:11-14 | `[Required]` on a string: a null, empty or all-white-space value fails; one character that is not white space is enough |
| `Primitives.FitsLength` | Models/Event.cs:12 | `[StringLength(max)]`: a null value passes, any other value passes when it is at most `max` characters |
| `Primitives.ContainsAt` | Controllers/EventController.cs:42-44 | `Contains` holds exactly when the search text occurs at some position of the field |
| `Primitives.LexTotal` | Controllers/EventController.cs:48-61 | the ordinal name order compares every two names |
| `Primitives.LexTransitive` | Controllers/EventController.cs:48-61 | the ordinal name order is transitive |
| `Primitives.FreshId` | Models/Booking.cs:9-10 | the key an identity column hands out is positive and different from every key in use |
| `BookingModel.NewBooking` | Models/Booking.cs:18-26 | a new booking takes one seat and is `Confirmed`; those defaults meet the seat range and status length, but the booking is invalid until it has a user id |
| `BookingModel.ValidBooking` | Models/Booking.cs:12-26 | the declared annotations: `UserId` is non-blank, `SeatCount` is in 1..1000, `Status` is at most 20 characters; `[Required]` on the `int` `EventId` constrains nothing |
| `BookingModel.NewBookingNeedsOnlyOwner` | Models/Booking.cs:12-26 | a default booking with an owner set is valid exactly when the owner id is non-blank (`UserId` required; `EventId` required is vacuous for an `int`) |
| `EventModel.NewEvent` | Models/Event.cs:36-61 | a new event is active, has no image, update date or creator, and fails validation (capacity 0 is below the `[Range(1, int.MaxValue)]` bound) |
| `EventModel.ValidEvent` | Models/Event.cs:11-61 | the declared annotations: name, description and location non-blank and at most 200, 2000 and 200 characters; capacity in 1..`int.MaxValue`; price not negative; image path at most 500 and creator at most 450 characters when present |
| `EventModel.IndexOfEvent` | Controllers/BookingController.cs:57-58 | `FirstOrDefault` by key: no index exactly when no event has that id, else the first index holding it |
| `EventModel.FindEvent` | Controllers/BookingController.cs:57-60 | the event found has the requested id and is in the table; none is found exactly when no event has that id |
| `EventModel.FindOwnKey` | Controllers/EventController.cs:194 | with unique keys, looking up an event's own id finds that event |
| `EventFormModel.NewEventViewModel` | Models/EventViewModel.cs:19-50 | the form defaults to today, 18:00, capacity 100, price 0, active, no image; the defaults meet the capacity and price constraints but the form is invalid |
| `EventFormModel.ValidForm` | Models/EventViewModel.cs:9-41 | the form's annotations: the same text, capacity and price constraints as the event's; the image fields carry none |
| `EventFormModel.HasUpload` | Controllers/EventController.cs:134 | a file counts as uploaded when one was sent and it is not empty (the same test recurs at line 211) |
| `EventFormModel.DefaultFormNeedsOnlyText` | Models/EventViewModel.cs:9-41 | a default form with name, description and location filled in is valid exactly when those three texts are required-and-within-length |
| `BookingController.BookedSeats` | Controllers/BookingController.cs:71-73 | the sum over the event's bookings is 0 when the event has none and non-negative when seat counts are |
| `BookingController.BookedAfterAppend` | Controllers/BookingController.cs:71-73 | appending a booking adds its seats to its own event's sum and nothing to any other event's |
| `BookingController.AvailableSeats` | Controllers/BookingController.cs:38-42 | capacity less booked seats: the whole capacity when the event has no bookings, and never more than the capacity while seat counts are non-negative (the POST recomputes it at line 75) |
| `BookingController.NextBookingId` | Models/Booking.cs:9-10 | the key the identity column assigns differs from every key already stored |
| `BookingController.Create` | Controllers/BookingController.cs:53-107 | invalid model → form, store unchanged; unknown event → not found, store unchanged; the `SeatCount <= 0` refusal never happens; a valid request for a known event asking for more than the available seats → refusal carrying exactly capacity minus booked seats, store unchanged; success iff valid, event found and seats ≤ available, then exactly one booking is appended: the posted one with a fresh key, the caller's user id, the current time and status `Confirmed` |
| `BookingController.CreateKeepsEventWithinCapacity` | Controllers/BookingController.cs:75-101 | whatever `Create` answers, an event whose booked seats were within its capacity stays within it |
| `BookingController.CreateKeepsWithinCapacity` | Controllers/BookingController.cs:68-104 | with unique event keys, `Create` keeps every event's booked seats within its capacity |
| `BookingController.CreateKeepsUniqueBookingIds` | Controllers/BookingController.cs:101-102 | booking keys stay unique after a create |
| `BookingController.CreateForm` | Controllers/BookingController.cs:25-48 | not found exactly when no event has the id; otherwise the form shows that event, its available seats (capacity less every booked seat), and a draft booking for it of one `Confirmed` seat |
| `BookingController.FormPredictsAdmission` | Controllers/BookingController.cs:34-42 | with the store unchanged, a valid request is admitted iff it asks for at most the count the form showed, and is otherwise refused with that same count |
| `BookingController.IndexOfBooking` | Controllers/BookingController.cs:152-153 | lookup by key: none exactly when no booking has the id, else the first index holding it |
| `BookingController.IndexOfBookingSameKeys` | Controllers/BookingController.cs:152 | stores with the same keys in the same places resolve a key to the same index |
| `BookingController.MayCancel` | Controllers/BookingController.cs:158 | the owner may cancel and an administrator may cancel; anyone else may not |
| `BookingController.Cancel` | Controllers/BookingController.cs:150-166 | missing id → not found; neither owner nor admin → forbidden; both leave the store unchanged; otherwise only that booking changes, and only its status becomes `Cancelled`; the redirect goes to the admin list exactly for an admin |
| `BookingController.BookedIgnoresStatus` | Controllers/BookingController.cs:71-73 | rewriting one booking's status leaves every event's seat sum unchanged |
| `BookingController.CancelKeepsBookedSeats` | Controllers/BookingController.cs:161-163 | any cancel leaves every event's booked seats, hence its available seats, unchanged |
| `BookingController.CancelIdempotent` | Controllers/BookingController.cs:161-163 | cancelling a second time gives the same outcome and the same store as cancelling once |
| `BookingController.ConfirmedAtMostBooked` | Controllers/BookingController.cs:71-73 | with non-negative seat counts, the seats of confirmed bookings are between 0 and the booked seats |
| `BookingController.RunKeepsWithinCapacity` | Controllers/BookingController.cs:53-166 | over any sequence of creates and cancels, starting within capacity with valid seat counts, every event stays within capacity, seat counts stay valid, and the confirmed seats are within capacity |
| `BookingController.CreateAll` | Controllers/BookingController.cs:53-107 | requests answered one after another, each against the store the previous left, give one answer per request, the first being `Create`'s answer to the first request |
| `BookingController.CreateAllAppends` | Controllers/BookingController.cs:95-103 | a batch keeps the rows already stored and adds exactly one `Confirmed` row per admitted request |
| `BookingController.OneSeatRequest` | Controllers/BookingController.cs:71-101 | a valid one-seat request is admitted exactly while a seat is left and then takes one; otherwise it is told 0 seats are left and nothing changes |
| `BookingController.OneSeatRequestsCount` | Controllers/BookingController.cs:71-101 | n one-seat requests against an event with a seats left admit exactly min(n, a) |
| `BookingController.OneSeatRefusalsReportNone` | Controllers/BookingController.cs:86-93 | every one of those requests that is not admitted is refused reporting 0 seats left |
| `BookingController.OneSeatRequestsFillExactly` | Controllers/BookingController.cs:71-101 | n one-seat requests against an event with a seats left admit exactly min(n, a); every other one is refused reporting 0 seats left |
| `EventListing.KeepMatching` | Controllers/EventController.cs:42-44 | keeps each event as often as it occurs when name, location or description contains the search, else drops it; never grows the list |
| `EventListing.Filter` | Controllers/EventController.cs:39-45 | a null or empty search keeps the list unchanged; any other keeps exactly the matching events, with their multiplicities |
| `EventListing.SortKeyOf` | Controllers/EventController.cs:48-61 | `"name_desc"`, `"Date"` and `"date_desc"` select name descending, date ascending and date descending; anything else, null included, selects name ascending |
| `EventListing.InOrderTotal` | Controllers/EventController.cs:48-61 | under every sort order, any two events are comparable |
| `EventListing.InOrderTransitive` | Controllers/EventController.cs:48-61 | every sort order is transitive |
| `EventListing.Insert` | Controllers/EventController.cs:48-61 | inserting into a sorted list gives a sorted list that is the old one plus the new event |
| `EventListing.SortBy` | Controllers/EventController.cs:48-61 | the result is a permutation of the input, sorted by the selected key |
| `EventListing.SkipCount` | Controllers/EventController.cs:68 | for pages 1 to 214748365 the offset is `(page - 1) * 10`; otherwise it wraps as 32-bit `int` arithmetic does |
| `EventListing.Skip` | Controllers/EventController.cs:68 | `OFFSET n`: the suffix of the list after its first n events, empty when n reaches past the end |
| `EventListing.Take` | Controllers/EventController.cs:69 | `FETCH NEXT n`: the prefix of min(n, length) events |
| `EventListing.TakeSkipSplit` | Controllers/EventController.cs:68-69 | `Take(n)` followed by `Skip(n)` gives back the whole list |
| `EventListing.PageStart` | Controllers/EventController.cs:67-69 | for a non-negative offset, the page starts at `(page - 1) * 10`, or at the end of a shorter list, whenever the offset fits an `int` |
| `EventListing.PageOf` | Controllers/EventController.cs:67-70 | the page is the contiguous run at `PageStart` of length min(10, remaining) |
| `EventListing.TotalPages` | Controllers/EventController.cs:65-66 | 0 pages for 0 events; otherwise the ceiling: `(pages - 1) * 10 < count <= pages * 10` |
| `EventListing.PagesCoverList` | Controllers/EventController.cs:65-70 | event k of the list is entry k % 10 of page k / 10 + 1, and that page is within the page count |
| `EventListing.PagesPastTheLastAreEmpty` | Controllers/EventController.cs:65-70 | pages after the last counted page are empty |
| `EventListing.SortedSlice` | Controllers/EventController.cs:67-70 | a slice of a sorted list is sorted |
| `EventListing.PageOfSortedList` | Controllers/EventController.cs:48-70 | a page of a sorted permutation is sorted and contains only listed events |
| `EventListing.NameSortParm` | Controllers/EventController.cs:32 | the name link is `"name_desc"` exactly when the sort order is null or empty, and `""` otherwise |
| `EventListing.DateSortParm` | Controllers/EventController.cs:33 | the date link is `"date_desc"` exactly when the sort order is `"Date"`, and `"Date"` otherwise |
| `EventListing.SortLinksToggle` | Controllers/EventController.cs:32-61 | from the default order the name link gives name descending, and from there name ascending; the date link flips ascending dates to descending and turns every other order into ascending dates |
| `EventListing.Index` | Controllers/EventController.cs:29-84 | the query fails exactly when the page offset is negative, reporting that offset; otherwise the page is page `page` of some sorted permutation of the search result, with min(10, count − start) events, all from the table, all matching a non-empty search, sorted by the selected key; the total count is the filtered count (all events without a search) and the page count is its ceiling over 10; the sort links are `NameSortParm` and `DateSortParm` of the requested order |
| `EventListing.OffsetErrorPages` | Controllers/EventController.cs:67-70 | pages 1 to 214748365 are served; pages -214748363 to 0 and 214748366 to 429496730 fail with a negative offset |
| `EventListing.IndexPage` | Controllers/EventController.cs:48-70 | a served page is that page of the model's sorted search result |
| `EventListing.PageHolding` | Controllers/EventController.cs:65-70 | every event of a list is on some page from 1 to the page count |
| `EventListing.IndexListsEveryMatch` | Controllers/EventController.cs:29-70 | every event the search keeps is on some page from 1 to the page count; when no two matches tie under the selected key, that page holds it in every sorted order the database may use, so separate page requests together list every match |
| `EventListing.SortedPermutationUnique` | Controllers/EventController.cs:48-61 | when no two events tie under the key, the events have exactly one sorted order |
| `EventListing.TiesCanHideAnEvent` | Controllers/EventController.cs:53-70 | with eleven events on one date sorted by date, two orders the `ORDER BY` allows leave the eleventh event off page 1 of the one and page 2 of the other |
| `ImageUpload.ExtensionOf` | Controllers/EventController.cs:299 | `Path.GetExtension` gives either empty, or a dot and at least one character ending the name, with no dot or directory separator after the dot |
| `ImageUpload.ExtensionOfNamedFile` | Controllers/EventController.cs:299 | a name that ends in a dot and one or more plain characters has exactly that extension |
| `ImageUpload.ToLowerInvariant` | Controllers/EventController.cs:299 | lower-casing keeps the length and lowers each ASCII capital |
| `ImageUpload.SaveImage` | Controllers/EventController.cs:295-330 | passes iff the lower-cased extension is one of .jpg .jpeg .png .gif .webp and the length is at most 5·1024·1024; a bad extension is reported first; the stored path is `/uploads/events/` + GUID + extension and fits the 500-character column |
| `ImageUpload.ImageGateByName` | Controllers/EventController.cs:298-309 | a file `stem.ext` passes exactly when the lower-cased `.ext` is allowed and the file is at most 5 MB |
| `EventEditing.FormFieldsCarryValidity` | Controllers/EventController.cs:119-131 | an event that agrees with a valid form on the eight fields is valid once its image path and creator fit their columns |
| `EventEditing.CopyFormFields` | Controllers/EventController.cs:200-207 | writes the eight form fields onto an event and keeps its key, image path, creation date, update date and creator (the same eight are set at lines 121-128) |
| `EventEditing.UploadedPath` | Controllers/EventController.cs:134-137 | no file or an empty file leaves no path; otherwise the gate's path or its error, and any path fits the column |
| `EventEditing.CreateEvent` | Controllers/EventController.cs:115-147 | invalid form → form again, nothing added; a rejected upload adds nothing; otherwise exactly one event is appended with a fresh key, the eight fields from the form, the creation time and creator, no update date, an image iff a file was sent and then exactly the path the image gate returned, and it is valid when the creator name fits |
| `EventEditing.ToViewModel` | Controllers/EventController.cs:163-175 | the edit form carries the event's id, its eight fields and its image path, and is valid when the event is |
| `EventEditing.EditFormFor` | Controllers/EventController.cs:150-178 | a null id or an unknown event is not found; otherwise the form is built from the stored event |
| `EventEditing.EditEvent` | Controllers/EventController.cs:183-246 | id ≠ form id → not found; invalid form → form again with the stored image path; unknown event → not found; a rejected upload changes nothing; otherwise only that event changes: eight fields from the form, update time set, key, creation date and creator kept, image replaced only when a non-empty file is sent; the result is valid when the old path and creator fit |
| `EventEditing.EditUnchangedFormOnlyStamps` | Controllers/EventController.cs:163-208 | submitting a valid event's edit form unchanged and without a file changes only that event's update time |

## Left out

- `Program.cs`: service wiring, identity password and lockout settings
  (enforced inside the identity library), and the raw-SQL table creation.
- `Controllers/AdminController.cs`, `Data/*` and `Models/DashboardVM.cs`:
  dashboard counts, seeding, the ORM context and schema migrations are not
  part of this model.
- Capacity edits: `Edit` writes any valid `Capacity` (EventController.cs:205)
  without reading the bookings, and `EventEditing.EditEvent` models that. An
  edit can therefore leave an event's booked seats above its new capacity.
  `BookingController.RunKeepsWithinCapacity` holds only while the event
  table stays fixed.
- Concurrency: `Create` is assumed to be one atomic step. The transaction
  begun at BookingController.cs:68 runs at SQL Server's default READ
  COMMITTED isolation. Two concurrent requests can both read the same seat
  sum and both insert, which can overbook an event. Interleavings are not
  modelled, so the capacity lemmas hold for requests handled one at a time.
- `MyBookings`, `AdminBookings`, `Details`, `Delete`, `DeleteConfirmed` and
  `EventExists`: plain queries and a row removal with no logic of their own.
- The statistics on the `Index` page (`TotalEvents`, `UpcomingEvents`,
  `TotalBookings = 0`): counters shown beside the list, not a part of it.
- File I/O, GUID generation, `DeleteImage`, logging, `TempData`, `ViewBag` and
  view rendering. Note that in `Edit` the old image file is deleted before the
  new upload is checked. A rejected upload therefore loses the file on disk
  while the row keeps its path. The model has no file system, so this is not
  represented.
- Exceptions thrown by `SaveImageAsync` are modelled as rejected outcomes
  that store nothing. `DbUpdateConcurrencyException` is not modelled.
- Model binding: form values that fail to convert are not modelled.
  `ModelState.IsValid` is the conjunction of the declared annotations.
- BookingModel.ValidBooking: checks only the declared annotations. The
  `string?` annotations in the models suggest that nullable reference types
  are enabled; the project file is not part of this model. If they are, MVC
  adds an implicit `[Required]` to the non-nullable `Status`, `User` and
  `Event` of `Booking` (Models/Booking.cs:26, 30, 33). A posted booking never
  carries `User` or `Event`. So `ModelState.IsValid` at BookingController.cs:55
  would be false on every POST, and no booking would ever be created. The
  model assumes these implicit checks are off. It also accepts a blank
  `Status`, which that implicit check would reject. In addition, the
  constructor asks for `UserManager<IdentityUser>` (BookingController.cs:16-18),
  while Program.cs:15 registers identity only for `ApplicationUser`. Read as
  written, MVC cannot construct `BookingController`, and none of its actions
  would run. The model assumes the controller can be constructed.
- The model assumes no `BookingId` is posted with the form: the identity
  column assigns the key, modelled as one above the largest key in use.
  A posted non-zero key would be sent as an explicit value, which SQL Server
  refuses for an identity column.
- `GetUserAsync` returning null for a deleted user is not modelled: the
  signed-in user's id is a parameter.
- Integer widths: capacities and seat sums are unbounded integers. A SQL `SUM`
  overflow is not modelled. Seat sums can only grow up to some event's
  `int` capacity, so they stay in range. Only the page offset is computed
  with explicit 32-bit wrap-around.
- A failing page query is an exception that aborts the request. The model
  returns it as an `IndexError` result instead.
- `Math.Ceiling` on a `double` is integer ceiling division. The two agree for
  every `int` count.
- `Path.GetExtension` follows .NET on Windows: both `/` and `\` end the
  file name. On Linux only `/` does, so `x.png\y` has the extension
  `.png\y` there rather than none. Either way such a name fails the
  whitelist.
- Strings: lengths count characters, not UTF-16 code units, so astral
  characters count once. `Contains` and the name ordering are ordinal, while
  the database collation may ignore case. `ToLowerInvariant` lowers ASCII
  letters only.
- Prices are exact rationals. Rounding to `decimal(18,2)` on storage is not
  modelled. Dates and times are integer clock ticks.
- `EventListing.SortBy`: states a sorted permutation but not which order
  tied events take, because the database does not fix it either.
- `EventListing.Index`: states that the page is page `page` of some sorted
  permutation of the search result, not of one particular permutation,
  since the tie order is unspecified.
- `EventListing.IndexPage`: ties the page to the model's own insertion
  order for tied events. The database does not promise that order. The
  lemma describes the program only for searches without ties, where
  `EventListing.SortedPermutationUnique` makes the model's order the only
  sorted order.
- `EventListing.IndexListsEveryMatch`: the page it names holds the event in
  every sorted order only when no two matches tie. With ties, separate page
  requests may use different orders and can miss an event
  (`EventListing.TiesCanHideAnEvent`). The model's own `Index` uses one order
  for every page, which the database does not guarantee.

=== FILE: booking_controller.dfy ===
/** `BookingController`: seat admission (`Create`), the booking form
    (`Create` GET) and cancellation (`Cancel`).

    The database is an immutable sequence of bookings and each action a
    function from the old sequence to a result and the new sequence. `Create`
    is assumed to run as one atomic step, although the transaction around
    the admission check runs at the database's default isolation level.
    The current user, the admin role flag and the clock are parameters. */
module BookingController {
  import opened Wrappers
  import opened Primitives
  import opened BookingModel
  import opened EventModel

  type Store = seq<Booking>

  /** The seats counted against event `eventId`: the sum of `SeatCount`
      over every booking of that event, cancelled ones included; the
      empty sum is 0. */
  function BookedSeats(store: Store, eventId: int): (r: int)
    ensures (forall i :: 0 <= i < |store| ==> store[i].eventId != eventId) ==> r == 0
    ensures (forall i :: 0 <= i < |store| ==> store[i].seatCount >= 0) ==> r >= 0
    decreases |store|
  {
    if store == [] then 0
    else
      var last := store[|store| - 1];
      BookedSeats(store[..|store| - 1], eventId) + (if last.eventId == eventId then last.seatCount else 0)
  }

  /** Seats still on sale at `ev`: its capacity less every seat booked. */
  function AvailableSeats(ev: Event, store: Store): (r: int)
    ensures (forall i :: 0 <= i < |store| ==> store[i].eventId != ev.id) ==> r == ev.capacity
    ensures (forall i :: 0 <= i < |store| ==> store[i].seatCount >= 0) ==> r <= ev.capacity
  {
    ev.capacity - BookedSeats(store, ev.id)
  }

  /** The seats of the `Confirmed` bookings of event `eventId` alone. */
  function ConfirmedSeats(store: Store, eventId: int): int
    decreases |store|
  {
    if store == [] then 0
    else
      var last := store[|store| - 1];
      ConfirmedSeats(store[..|store| - 1], eventId)
        + (if last.eventId == eventId && last.status == Confirmed then last.seatCount else 0)
  }

  function BookingIds(store: Store): (ids: seq<int>)
    ensures |ids| == |store|
    ensures forall i :: 0 <= i < |store| ==> ids[i] == store[i].bookingId
  {
    seq(|store|, i requires 0 <= i < |store| => store[i].bookingId)
  }

  /** The `BookingId` the identity column assigns to the next row. */
  function NextBookingId(store: Store): (id: int)
    ensures forall i :: 0 <= i < |store| ==> store[i].bookingId != id
  {
    var ids := BookingIds(store);
    var id := FreshId(ids);
    assert forall i :: 0 <= i < |store| ==> ids[i] in ids;
    id
  }

  /** The `BookingId` column is the table's primary key. */
  predicate UniqueBookingIds(store: Store) {
    forall i, j :: 0 <= i < j < |store| ==> store[i].bookingId != store[j].bookingId
  }

  lemma BookedAfterAppend(store: Store, b: Booking, eventId: int)
    ensures BookedSeats(store + [b], eventId)
         == BookedSeats(store, eventId) + (if b.eventId == eventId then b.seatCount else 0)
  {
    assert (store + [b])[..|store|] == store;
  }

  /** What the POST `Create` action answers. */
  datatype CreateOutcome =
    | ShowForm                          // the posted model fails its annotations
    | EventNotFound
    | SeatCountTooLow(available: int)   // "Seat count must be at least 1."
    | NotEnoughSeats(available: int)    // "Only {available} left."
    | Created(booking: Booking)

  datatype CreateResult = CreateResult(outcome: CreateOutcome, store: Store)

  /** POST `Create`: admit the posted booking `model` for the signed-in user
      `userId` at time `now`, or reject it and leave the store alone. */
  function Create(events: seq<Event>, store: Store, model: Booking, userId: string, now: int): (r: CreateResult)
    ensures !ValidBooking(model) ==> r == CreateResult(ShowForm, store)
    ensures ValidBooking(model) && FindEvent(events, model.eventId).None? ==> r == CreateResult(EventNotFound, store)
    ensures !r.outcome.Created? ==> r.store == store
    // The [Range] annotation checked first already rules out SeatCount <= 0.
    ensures !r.outcome.SeatCountTooLow?
    ensures model.seatCount <= 0 ==> !r.outcome.Created?
    ensures r.outcome.NotEnoughSeats? ==>
      && FindEvent(events, model.eventId).Some?
      && r.outcome.available == AvailableSeats(FindEvent(events, model.eventId).value, store)
      && model.seatCount > r.outcome.available
    ensures && ValidBooking(model)
            && FindEvent(events, model.eventId).Some?
            && model.seatCount > AvailableSeats(FindEvent(events, model.eventId).value, store)
        ==> r == CreateResult(NotEnoughSeats(AvailableSeats(FindEvent(events, model.eventId).value, store)), store)
    ensures r.outcome.Created? <==>
      && ValidBooking(model)
      && FindEvent(events, model.eventId).Some?
      && model.seatCount <= AvailableSeats(FindEvent(events, model.eventId).value, store)
    ensures r.outcome.Created? ==>
      && r.store == store + [r.outcome.booking]
      && r.outcome.booking
         == model.(bookingId := r.outcome.booking.bookingId, userId := userId, bookingDate := now, status := Confirmed)
      && forall i :: 0 <= i < |store| ==> store[i].bookingId != r.outcome.booking.bookingId
  {
    if !ValidBooking(model) then CreateResult(ShowForm, store)
    else match FindEvent(events, model.eventId)
      case None => CreateResult(EventNotFound, store)
      case Some(ev) =>
        var available := ev.capacity - BookedSeats(store, model.eventId);
        if model.seatCount <= 0 then CreateResult(SeatCountTooLow(available), store)
        else if model.seatCount > available then CreateResult(NotEnoughSeats(available), store)
        else
          var booking := model.(bookingId := NextBookingId(store), userId := userId, bookingDate := now, status := Confirmed);
          CreateResult(Created(booking), store + [booking])
  }

  /** Whatever `Create` answers, an event whose booked seats were within its
      capacity stays within it, and no other event's count moves. */
  lemma CreateKeepsEventWithinCapacity(events: seq<Event>, store: Store, model: Booking, userId: string, now: int, ev: Event)
    requires FindEvent(events, ev.id) == Some(ev)
    requires BookedSeats(store, ev.id) <= ev.capacity
    ensures BookedSeats(Create(events, store, model, userId, now).store, ev.id) <= ev.capacity
  {
    var r := Create(events, store, model, userId, now);
    if r.outcome.Created? {
      BookedAfterAppend(store, r.outcome.booking, ev.id);
    }
  }

  /** Every event's booked seats are within its capacity. */
  predicate WithinCapacity(events: seq<Event>, store: Store) {
    forall i :: 0 <= i < |events| ==> BookedSeats(store, events[i].id) <= events[i].capacity
  }

  lemma CreateKeepsWithinCapacity(events: seq<Event>, store: Store, model: Booking, userId: string, now: int)
    requires UniqueIds(events)
    requires WithinCapacity(events, store)
    ensures WithinCapacity(events, Create(events, store, model, userId, now).store)
  {
    forall i | 0 <= i < |events|
      ensures BookedSeats(Create(events, store, model, userId, now).store, events[i].id) <= events[i].capacity
    {
      FindOwnKey(events, i);
      CreateKeepsEventWithinCapacity(events, store, model, userId, now, events[i]);
    }
  }

  /** A successful `Create` keeps booking keys unique. */
  lemma CreateKeepsUniqueBookingIds(events: seq<Event>, store: Store, model: Booking, userId: string, now: int)
    requires UniqueBookingIds(store)
    ensures UniqueBookingIds(Create(events, store, model, userId, now).store)
  {
  }

  /** What the GET `Create` action shows. */
  datatype FormOutcome =
    | FormEventNotFound
    | BookingForm(event: Event, available: int, draft: Booking)

  /** GET `Create`: the booking form for event `id`, the seats it still
      has, and a draft booking of one seat. */
  function CreateForm(events: seq<Event>, store: Store, id: int, now: int): (r: FormOutcome)
    ensures r.FormEventNotFound? <==> forall i :: 0 <= i < |events| ==> events[i].id != id
    ensures r.BookingForm? ==>
      && r.event in events && r.event.id == id
      && r.draft.eventId == id && r.draft.seatCount == 1 && r.draft.status == Confirmed
    ensures r.BookingForm? ==> r.available == AvailableSeats(r.event, store)
  {
    match FindEvent(events, id)
    case None => FormEventNotFound
    case Some(ev) =>
      BookingForm(ev, ev.capacity - BookedSeats(store, id), NewBooking(now).(eventId := id))
  }

  /** The count the form shows is the one the POST decides by: with the store
      unchanged in between, a valid request for that event is admitted
      exactly when it asks for no more seats than the form showed, and
      otherwise is told that same count. */
  lemma FormPredictsAdmission(events: seq<Event>, store: Store, now: int, model: Booking, userId: string, later: int)
    requires ValidBooking(model)
    requires CreateForm(events, store, model.eventId, now).BookingForm?
    ensures var shown := CreateForm(events, store, model.eventId, now).available;
      var r := Create(events, store, model, userId, later);
      && (r.outcome.Created? <==> model.seatCount <= shown)
      && (!r.outcome.Created? ==> r.outcome == NotEnoughSeats(shown))
  {
  }

  /** `FindAsync(id)`: the index of the booking with key `id`, if any. */
  function IndexOfBooking(store: Store, id: int): (r: Option<nat>)
    ensures r.None? <==> forall i :: 0 <= i < |store| ==> store[i].bookingId != id
    ensures r.Some? ==> r.value < |store| && store[r.value].bookingId == id
    ensures r.Some? ==> forall i :: 0 <= i < r.value ==> store[i].bookingId != id
  {
    if store == [] then None
    else if store[0].bookingId == id then Some(0)
    else match IndexOfBooking(store[1..], id)
      case None => None
      case Some(k) => Some(k + 1)
  }

  /** Two stores with the same keys in the same places find the same index. */
  lemma IndexOfBookingSameKeys(store: Store, other: Store, id: int)
    requires |store| == |other|
    requires forall i :: 0 <= i < |store| ==> store[i].bookingId == other[i].bookingId
    ensures IndexOfBooking(store, id) == IndexOfBooking(other, id)
  {
  }

  /** What the `Cancel` action answers; a cancellation redirects to the
      admin list for an administrator and to the user's own list otherwise. */
  datatype CancelOutcome = BookingNotFound | Forbidden | CancelDone(toAdminList: bool)

  datatype CancelResult = CancelResult(outcome: CancelOutcome, store: Store)

  /** Only the booking's owner or an administrator may cancel it. */
  function MayCancel(b: Booking, userId: string, isAdmin: bool): (r: bool)
    ensures b.userId == userId ==> r
    ensures isAdmin ==> r
    ensures !r ==> b.userId != userId && !isAdmin
  {
    b.userId == userId || isAdmin
  }

  /** `Cancel`: booking `id` cancelled at the request of `userId`. */
  function Cancel(store: Store, id: int, userId: string, isAdmin: bool): (r: CancelResult)
    ensures |r.store| == |store|
    ensures r.outcome.BookingNotFound? <==> forall i :: 0 <= i < |store| ==> store[i].bookingId != id
    ensures r.outcome.Forbidden? <==>
      IndexOfBooking(store, id).Some? && !MayCancel(store[IndexOfBooking(store, id).value], userId, isAdmin)
    ensures !r.outcome.CancelDone? ==> r.store == store
    ensures r.outcome.CancelDone? ==>
      && r.outcome.toAdminList == isAdmin
      && var k := IndexOfBooking(store, id).value;
      && store[k].bookingId == id
      && MayCancel(store[k], userId, isAdmin)
      && r.store[k] == store[k].(status := Cancelled)
      && forall i :: 0 <= i < |store| && i != k ==> r.store[i] == store[i]
  {
    match IndexOfBooking(store, id)
    case None => CancelResult(BookingNotFound, store)
    case Some(k) =>
      if !MayCancel(store[k], userId, isAdmin) then CancelResult(Forbidden, store)
      else CancelResult(CancelDone(isAdmin), store[k := store[k].(status := Cancelled)])
  }

  /** Changing a booking's status moves no seat count: the sum reads only
      event ids and seat counts. */
  lemma {:induction false} BookedIgnoresStatus(store: Store, k: nat, status: string, eventId: int)
    requires k < |store|
    ensures BookedSeats(store[k := store[k].(status := status)], eventId) == BookedSeats(store, eventId)
    decreases |store|
  {
    var updated := store[k := store[k].(status := status)];
    var n := |store| - 1;
    if k == n {
      assert updated[..n] == store[..n];
    } else {
      assert updated[..n] == store[..n][k := store[k].(status := status)];
      BookedIgnoresStatus(store[..n], k, status, eventId);
    }
  }

  /** A cancellation frees no seat: every event's booked seats, and so its
      available seats, are the same before and after `Cancel`. */
  lemma {:induction false} CancelKeepsBookedSeats(store: Store, id: int, userId: string, isAdmin: bool, eventId: int)
    ensures BookedSeats(Cancel(store, id, userId, isAdmin).store, eventId) == BookedSeats(store, eventId)
  {
    var r := Cancel(store, id, userId, isAdmin);
    if r.outcome.CancelDone? {
      var k := IndexOfBooking(store, id).value;
      assert r.store == store[k := store[k].(status := Cancelled)];
      BookedIgnoresStatus(store, k, Cancelled, eventId);
    }
  }

  /** Cancelling twice does what cancelling once does, with the same answer. */
  lemma CancelIdempotent(store: Store, id: int, userId: string, isAdmin: bool)
    ensures var once := Cancel(store, id, userId, isAdmin);
      Cancel(once.store, id, userId, isAdmin) == once
  {
    var once := Cancel(store, id, userId, isAdmin);
    IndexOfBookingSameKeys(store, once.store, id);
    if once.outcome.CancelDone? {
      var k := IndexOfBooking(store, id).value;
      assert once.store == store[k := store[k].(status := Cancelled)];
      assert once.store[k := once.store[k].(status := Cancelled)] == once.store;
    }
  }

  /** Only the seats of confirmed bookings are a part of the booked seats. */
  lemma {:induction false} ConfirmedAtMostBooked(store: Store, eventId: int)
    requires forall i :: 0 <= i < |store| ==> store[i].seatCount >= 0
    ensures 0 <= ConfirmedSeats(store, eventId) <= BookedSeats(store, eventId)
    decreases |store|
  {
    if store != [] {
      ConfirmedAtMostBooked(store[..|store| - 1], eventId);
    }
  }

  /** One request against the booking actions. */
  datatype BookingRequest = BookingRequest(model: Booking, userId: string, now: int)

  datatype Request =
    | Book(request: BookingRequest)
    | Release(id: int, userId: string, isAdmin: bool)

  /** The store after serving `requests` one after another. */
  function Run(events: seq<Event>, store: Store, requests: seq<Request>): Store
    decreases |requests|
  {
    if requests == [] then store
    else
      var next := match requests[0]
        case Book(q) => Create(events, store, q.model, q.userId, q.now).store
        case Release(id, userId, isAdmin) => Cancel(store, id, userId, isAdmin).store;
      Run(events, next, requests[1..])
  }

  /** Every seat count a store holds is one a booking may have. */
  predicate SeatCountsValid(store: Store) {
    forall i :: 0 <= i < |store| ==> ValidSeatCount(store[i].seatCount)
  }

  /** The capacity invariant over any run of bookings and cancellations:
      starting within capacity, every event stays within it, and so do
      the seats of its confirmed bookings. */
  lemma {:induction false} RunKeepsWithinCapacity(events: seq<Event>, store: Store, requests: seq<Request>)
    requires UniqueIds(events)
    requires WithinCapacity(events, store) && SeatCountsValid(store)
    ensures WithinCapacity(events, Run(events, store, requests))
    ensures SeatCountsValid(Run(events, store, requests))
    ensures forall i :: 0 <= i < |events| ==>
      ConfirmedSeats(Run(events, store, requests), events[i].id) <= events[i].capacity
    decreases |requests|
  {
    if requests == [] {
      forall i | 0 <= i < |events|
        ensures ConfirmedSeats(store, events[i].id) <= events[i].capacity
      {
        ConfirmedAtMostBooked(store, events[i].id);
      }
    } else {
      match requests[0]
      case Book(q) =>
        var next := Create(events, store, q.model, q.userId, q.now).store;
        CreateKeepsWithinCapacity(events, store, q.model, q.userId, q.now);
        RunKeepsWithinCapacity(events, next, requests[1..]);
      case Release(id, userId, isAdmin) =>
        var next := Cancel(store, id, userId, isAdmin).store;
        forall i | 0 <= i < |events|
          ensures BookedSeats(next, events[i].id) <= events[i].capacity
        {
          CancelKeepsBookedSeats(store, id, userId, isAdmin, events[i].id);
        }
        RunKeepsWithinCapacity(events, next, requests[1..]);
    }
  }

  function CountCreated(outcomes: seq<CreateOutcome>): nat
    decreases |outcomes|
  {
    if outcomes == [] then 0
    else (if outcomes[0].Created? then 1 else 0) + CountCreated(outcomes[1..])
  }

  /** The answers and the final store after a batch of booking requests. */
  datatype Batch = Batch(outcomes: seq<CreateOutcome>, store: Store)

  /** The requests answered one after another, each against the store the
      previous one left. */
  function CreateAll(events: seq<Event>, store: Store, requests: seq<BookingRequest>): (b: Batch)
    ensures |b.outcomes| == |requests|
    ensures requests != [] ==>
      b.outcomes[0] == Create(events, store, requests[0].model, requests[0].userId, requests[0].now).outcome
    decreases |requests|
  {
    if requests == [] then Batch([], store)
    else
      var first := Create(events, store, requests[0].model, requests[0].userId, requests[0].now);
      var rest := CreateAll(events, first.store, requests[1..]);
      Batch([first.outcome] + rest.outcomes, rest.store)
  }

  /** A batch keeps the rows already stored as they were and adds one
      `Confirmed` row per admitted request, and no other row. */
  lemma {:induction false} CreateAllAppends(events: seq<Event>, store: Store, requests: seq<BookingRequest>)
    ensures var b := CreateAll(events, store, requests);
      && |b.store| == |store| + CountCreated(b.outcomes)
      && b.store[..|store|] == store
      && forall i :: |store| <= i < |b.store| ==> b.store[i].status == Confirmed
    decreases |requests|
  {
    if requests != [] {
      var q := requests[0];
      var first := Create(events, store, q.model, q.userId, q.now);
      var rest := CreateAll(events, first.store, requests[1..]);
      CreateAllAppends(events, first.store, requests[1..]);
      var b := CreateAll(events, store, requests);
      assert b.outcomes[1..] == rest.outcomes;
      assert rest.store[..|first.store|][..|store|] == rest.store[..|store|];
      forall i | |store| <= i < |first.store|
        ensures rest.store[i].status == Confirmed
      {
        assert rest.store[i] == rest.store[..|first.store|][i] == first.outcome.booking;
      }
    }
  }

  /** One valid one-seat request against event `ev`: admitted exactly
      while a seat is left, taking one; otherwise told that none is left. */
  lemma OneSeatRequest(events: seq<Event>, store: Store, q: BookingRequest, ev: Event)
    requires FindEvent(events, ev.id) == Some(ev)
    requires ValidBooking(q.model) && q.model.eventId == ev.id && q.model.seatCount == 1
    requires AvailableSeats(ev, store) >= 0
    ensures var r := Create(events, store, q.model, q.userId, q.now);
      && (r.outcome.Created? <==> AvailableSeats(ev, store) > 0)
      && (r.outcome.Created? ==> AvailableSeats(ev, r.store) == AvailableSeats(ev, store) - 1)
      && (!r.outcome.Created? ==> r.outcome == NotEnoughSeats(0) && r.store == store)
  {
    var r := Create(events, store, q.model, q.userId, q.now);
    if r.outcome.Created? {
      BookedAfterAppend(store, r.outcome.booking, ev.id);
    }
  }

  /** The number admitted out of `n` one-seat requests for an event with
      `a` seats left is `min(n, a)`. */
  lemma {:induction false} OneSeatRequestsCount(events: seq<Event>, store: Store, requests: seq<BookingRequest>, ev: Event)
    requires FindEvent(events, ev.id) == Some(ev)
    requires forall i :: 0 <= i < |requests| ==>
      ValidBooking(requests[i].model) && requests[i].model.eventId == ev.id && requests[i].model.seatCount == 1
    requires AvailableSeats(ev, store) >= 0
    ensures CountCreated(CreateAll(events, store, requests).outcomes) == Min(|requests|, AvailableSeats(ev, store))
    decreases |requests|
  {
    if requests != [] {
      var q := requests[0];
      var first := Create(events, store, q.model, q.userId, q.now);
      OneSeatRequest(events, store, q, ev);
      var later := requests[1..];
      assert forall i :: 0 <= i < |later| ==> later[i] == requests[i + 1];
      OneSeatRequestsCount(events, first.store, later, ev);
      var b := CreateAll(events, store, requests);
      assert b.outcomes[1..] == CreateAll(events, first.store, later).outcomes;
    }
  }

  /** Every one-seat request for an event that is not admitted is told that
      no seat is left. */
  lemma {:induction false} OneSeatRefusalsReportNone(events: seq<Event>, store: Store, requests: seq<BookingRequest>, ev: Event)
    requires FindEvent(events, ev.id) == Some(ev)
    requires forall i :: 0 <= i < |requests| ==>
      ValidBooking(requests[i].model) && requests[i].model.eventId == ev.id && requests[i].model.seatCount == 1
    requires AvailableSeats(ev, store) >= 0
    ensures forall o :: o in CreateAll(events, store, requests).outcomes ==> o.Created? || o == NotEnoughSeats(0)
    decreases |requests|
  {
    if requests != [] {
      var q := requests[0];
      var first := Create(events, store, q.model, q.userId, q.now);
      OneSeatRequest(events, store, q, ev);
      var later := requests[1..];
      assert forall i :: 0 <= i < |later| ==> later[i] == requests[i + 1];
      OneSeatRefusalsReportNone(events, first.store, later, ev);
    }
  }

  /** No lost update: `n` one-seat requests for an event with `a` seats left
      admit exactly `min(n, a)` of them; every other one is turned away
      with the count 0. */
  lemma {:induction false} OneSeatRequestsFillExactly(events: seq<Event>, store: Store, requests: seq<BookingRequest>, ev: Event)
    requires FindEvent(events, ev.id) == Some(ev)
    requires forall i :: 0 <= i < |requests| ==>
      ValidBooking(requests[i].model) && requests[i].model.eventId == ev.id && requests[i].model.seatCount == 1
    requires AvailableSeats(ev, store) >= 0
    ensures CountCreated(CreateAll(events, store, requests).outcomes) == Min(|requests|, AvailableSeats(ev, store))
    ensures forall o :: o in CreateAll(events, store, requests).outcomes ==> o.Created? || o == NotEnoughSeats(0)
  {
    OneSeatRequestsCount(events, store, requests, ev);
    OneSeatRefusalsReportNone(events, store, requests, ev);
  }
}

=== FILE: booking_model.dfy ===
/** The `Booking` entity: one user's reservation of seats at one event. */
module BookingModel {
  import opened Primitives

  const Confirmed: string := "Confirmed"
  const Cancelled: string := "Cancelled"

  /** `[Range(1, 1000)]` on `SeatCount`. */
  const MinSeats: int := 1
  const MaxSeats: int := 1000

  /** `[MaxLength(20)]` on `Status`. */
  const StatusMaxLength: nat := 20

  /** Dates are clock ticks. A null `UserId` is the empty string. */
  datatype Booking = Booking(
    bookingId: int,
    userId: string,
    eventId: int,
    seatCount: int,
    bookingDate: int,
    status: string)

  predicate ValidSeatCount(n: int) {
    MinSeats <= n <= MaxSeats
  }

  /** The data annotations on `Booking`: `UserId` is required, `SeatCount`
      is in range and `Status` fits its column. `[Required]` on the `int`
      field `EventId` constrains nothing, since an `int` is never null. */
  predicate ValidBooking(b: Booking) {
    && IsRequiredText(b.userId)
    && ValidSeatCount(b.seatCount)
    && |b.status| <= StatusMaxLength
  }

  /** `new Booking()` at clock time `now`. */
  function NewBooking(now: int): (b: Booking)
    ensures b.seatCount == 1 && b.status == Confirmed && b.bookingDate == now
    ensures ValidSeatCount(b.seatCount) && |b.status| <= StatusMaxLength
    ensures !ValidBooking(b)
  {
    Booking(0, "", 0, 1, now, Confirmed)
  }

  /** A default booking is valid exactly when the owner set on it is a
      real user id: the defaults themselves satisfy every other annotation. */
  lemma NewBookingNeedsOnlyOwner(now: int, userId: string, eventId: int)
    ensures ValidBooking(NewBooking(now).(userId := userId, eventId := eventId)) <==> IsRequiredText(userId)
  {
  }
}

=== FILE: event_editing.dfy ===
/** `EventController.Create` and `Edit`: the mapping between the form model
    and the stored event. The event table is an immutable sequence; the
    clock, the signed-in user's name and the GUID of a stored image are
    parameters. */
module EventEditing {
  import opened Wrappers
  import opened Primitives
  import opened EventModel
  import opened EventFormModel
  import opened ImageUpload

  /** The eight fields the form edits agree between an event and a form. */
  predicate FormFieldsAgree(e: Event, m: EventViewModel) {
    && e.name == m.name
    && e.description == m.description
    && e.eventDate == m.eventDate
    && e.eventTime == m.eventTime
    && e.location == m.location
    && e.capacity == m.capacity
    && e.price == m.price
    && e.isActive == m.isActive
  }

  /** The eight form fields of `m` written onto `e`. */
  function CopyFormFields(e: Event, m: EventViewModel): (r: Event)
    ensures FormFieldsAgree(r, m)
    ensures && r.id == e.id && r.imagePath == e.imagePath && r.createdDate == e.createdDate
            && r.updatedDate == e.updatedDate && r.createdBy == e.createdBy
  {
    e.(name := m.name, description := m.description, eventDate := m.eventDate,
       eventTime := m.eventTime, location := m.location, capacity := m.capacity,
       price := m.price, isActive := m.isActive)
  }

  /** A form that satisfies its annotations yields an event satisfying the
      event's, once its image path and creator name fit their columns. */
  lemma FormFieldsCarryValidity(e: Event, m: EventViewModel)
    requires FormFieldsAgree(e, m) && ValidForm(m)
    requires FitsLength(e.imagePath, ImagePathMaxLength) && FitsLength(e.createdBy, CreatedByMaxLength)
    ensures ValidEvent(e)
  {
  }

  /** The image path an upload leaves on the event: none without a file, the
      stored path when the gate passes, the gate's error otherwise. */
  function UploadedPath(m: EventViewModel, guid: GuidText): (r: Result<Option<string>, UploadError>)
    ensures !HasUpload(m) ==> r == Ok(None)
    ensures HasUpload(m) ==> match SaveImage(m.imageFile.value, guid)
      case Ok(path) => r == Ok(Some(path))
      case Err(e) => r == Err(e)
    ensures r.Ok? ==> FitsLength(r.value, ImagePathMaxLength)
  {
    if !HasUpload(m) then Ok(None)
    else match SaveImage(m.imageFile.value, guid)
      case Ok(path) => Ok(Some(path))
      case Err(e) => Err(e)
  }

  datatype CreateOutcome =
    | ShowCreateForm                      // the form fails its annotations
    | CreateRejected(error: UploadError)  // SaveImageAsync threw
    | EventCreated(event: Event)

  datatype CreateResult = CreateResult(outcome: CreateOutcome, events: seq<Event>)

  /** POST `Create`: a new event from the form `m`, added at `now` by the
      user named `userName`. */
  function CreateEvent(events: seq<Event>, m: EventViewModel, now: int, userName: Option<string>, guid: GuidText): (r: CreateResult)
    ensures !ValidForm(m) ==> r == CreateResult(ShowCreateForm, events)
    ensures !r.outcome.EventCreated? ==> r.events == events
    ensures r.outcome.CreateRejected? <==> ValidForm(m) && UploadedPath(m, guid).Err?
    ensures r.outcome.EventCreated? <==> ValidForm(m) && UploadedPath(m, guid).Ok?
    ensures r.outcome.EventCreated? ==>
      var e := r.outcome.event;
      && r.events == events + [e]
      && (forall i :: 0 <= i < |events| ==> events[i].id != e.id)
      && FormFieldsAgree(e, m)
      && e.createdDate == now && e.createdBy == userName && e.updatedDate.None?
      && (e.imagePath.Some? <==> HasUpload(m))
      && e.imagePath == UploadedPath(m, guid).value
      && (FitsLength(userName, CreatedByMaxLength) ==> ValidEvent(e))
  {
    if !ValidForm(m) then CreateResult(ShowCreateForm, events)
    else match UploadedPath(m, guid)
      case Err(error) => CreateResult(CreateRejected(error), events)
      case Ok(imagePath) =>
        var ids := EventIds(events);
        assert forall i :: 0 <= i < |events| ==> ids[i] in ids;
        var e := CopyFormFields(NewEvent(now), m).(id := FreshId(ids), imagePath := imagePath, createdBy := userName);
        CreateResult(EventCreated(e), events + [e])
  }

  /** GET `Edit`: the form filled in from a stored event. */
  function ToViewModel(e: Event): (m: EventViewModel)
    ensures FormFieldsAgree(e, m) && m.id == e.id
    ensures m.currentImagePath == e.imagePath && m.imageFile.None?
    ensures ValidEvent(e) ==> ValidForm(m)
  {
    EventViewModel(e.id, e.name, e.description, e.eventDate, e.eventTime, e.location,
                   e.capacity, e.price, None, e.imagePath, e.isActive)
  }

  datatype EditFormOutcome = EditFormNotFound | EditForm(model: EventViewModel)

  /** GET `Edit`: a missing id or an unknown event is not found. */
  function EditFormFor(events: seq<Event>, id: Option<int>): (r: EditFormOutcome)
    ensures r.EditFormNotFound? <==> id.None? || FindEvent(events, id.value).None?
    ensures r.EditForm? ==> r.model == ToViewModel(FindEvent(events, id.value).value)
  {
    if id.None? then EditFormNotFound
    else match FindEvent(events, id.value)
      case None => EditFormNotFound
      case Some(e) => EditForm(ToViewModel(e))
  }

  datatype EditOutcome =
    | EditNotFound
    | ShowEditForm(currentImagePath: Option<string>)  // the form fails its annotations
    | EditRejected(error: UploadError)                // SaveImageAsync threw
    | EventUpdated(event: Event)

  datatype EditResult = EditResult(outcome: EditOutcome, events: seq<Event>)

  /** POST `Edit`: event `id` rewritten from the form `m` at `now`. */
  function EditEvent(events: seq<Event>, id: int, m: EventViewModel, now: int, guid: GuidText): (r: EditResult)
    ensures id != m.id ==> r == EditResult(EditNotFound, events)
    ensures !r.outcome.EventUpdated? ==> r.events == events
    ensures r.outcome.EditNotFound? <==> id != m.id || (ValidForm(m) && FindEvent(events, id).None?)
    ensures r.outcome.ShowEditForm? <==> id == m.id && !ValidForm(m)
    ensures r.outcome.ShowEditForm? ==>
      r.outcome.currentImagePath == if FindEvent(events, id).Some? then FindEvent(events, id).value.imagePath else None
    ensures r.outcome.EditRejected? <==>
      id == m.id && ValidForm(m) && FindEvent(events, id).Some? && UploadedPath(m, guid).Err?
    ensures r.outcome.EventUpdated? ==>
      var k := IndexOfEvent(events, id).value;
      var before := events[k];
      var e := r.outcome.event;
      && r.events == events[k := e]
      && FormFieldsAgree(e, m)
      && e.id == before.id && e.createdDate == before.createdDate && e.createdBy == before.createdBy
      && e.updatedDate == Some(now)
      && (!HasUpload(m) ==> e.imagePath == before.imagePath)
      && (HasUpload(m) ==> e.imagePath == UploadedPath(m, guid).value)
      && (FitsLength(before.imagePath, ImagePathMaxLength) && FitsLength(before.createdBy, CreatedByMaxLength)
          ==> ValidEvent(e))
  {
    if id != m.id then EditResult(EditNotFound, events)
    else if !ValidForm(m) then
      EditResult(ShowEditForm(match FindEvent(events, id) case None => None case Some(e) => e.imagePath), events)
    else match IndexOfEvent(events, id)
      case None => EditResult(EditNotFound, events)
      case Some(k) =>
        var updated := CopyFormFields(events[k], m).(updatedDate := Some(now));
        match UploadedPath(m, guid)
        case Err(error) => EditResult(EditRejected(error), events)
        case Ok(path) =>
          var e := if path.Some? then updated.(imagePath := path) else updated;
          EditResult(EventUpdated(e), events[k := e])
  }

  /** Submitting the edit form unchanged, without a file, changes nothing
      but the update stamp of that one event. */
  lemma EditUnchangedFormOnlyStamps(events: seq<Event>, k: nat, now: int, guid: GuidText)
    requires UniqueIds(events) && k < |events| && ValidEvent(events[k])
    ensures var stamped := events[k].(updatedDate := Some(now));
      EditEvent(events, events[k].id, ToViewModel(events[k]), now, guid)
        == EditResult(EventUpdated(stamped), events[k := stamped])
  {
    FindOwnKey(events, k);
  }
}

=== FILE: event_form_model.dfy ===
/** `EventViewModel`: the form an administrator fills in to create or edit
    an event, with its data annotations and defaults. */
module EventFormModel {
  import opened Wrappers
  import opened EventModel

  /** .NET clock ticks (100 ns) in one hour. */
  const TicksPerHour: int := 36_000_000_000

  /** `EventTime` defaults to `TimeSpan.FromHours(18)`. */
  const DefaultEventTime: int := 18 * TicksPerHour

  const DefaultCapacity: int := 100

  /** An uploaded file: the client's file name and the length in bytes. */
  datatype Upload = Upload(fileName: string, length: int)

  datatype EventViewModel = EventViewModel(
    id: int,
    name: string,
    description: string,
    eventDate: int,
    eventTime: int,
    location: string,
    capacity: int,
    price: real,
    imageFile: Option<Upload>,
    currentImagePath: Option<string>,
    isActive: bool)

  /** The data annotations on `EventViewModel`; the image fields carry none. */
  predicate ValidForm(m: EventViewModel) {
    && ValidName(m.name)
    && ValidDescription(m.description)
    && ValidLocation(m.location)
    && ValidCapacity(m.capacity)
    && ValidPrice(m.price)
  }

  /** `new EventViewModel()` on the day `today` (`DateTime.Today`). */
  function NewEventViewModel(today: int): (m: EventViewModel)
    ensures m.eventDate == today && m.eventTime == DefaultEventTime && m.isActive
    ensures m.capacity == DefaultCapacity && m.price == 0.0
    ensures m.imageFile.None? && m.currentImagePath.None?
    ensures ValidCapacity(m.capacity) && ValidPrice(m.price) && !ValidForm(m)
  {
    EventViewModel(0, "", "", today, DefaultEventTime, "", DefaultCapacity, 0.0, None, None, true)
  }

  /** The defaults satisfy every constraint except the three required text
      fields: filling in those, and nothing else, makes the form valid
      exactly when each of the three is valid. */
  lemma DefaultFormNeedsOnlyText(today: int, name: string, description: string, location: string)
    ensures ValidForm(NewEventViewModel(today).(name := name, description := description, location := location))
        <==> ValidName(name) && ValidDescription(description) && ValidLocation(location)
  {
  }

  /** A file the controller treats as uploaded: present and not empty. */
  predicate HasUpload(m: EventViewModel) {
    m.imageFile.Some? && m.imageFile.value.length > 0
  }
}

=== FILE: event_listing.dfy ===
/** `EventController.Index`: the event list an administrator browses,
    filtered by a search string, sorted by one of four orders and cut into
    pages of ten, with the links that toggle the sort order. */
module EventListing {
  import opened Wrappers
  import opened Primitives
  import opened EventModel

  const PageSize: int := 10

  /** `string.IsNullOrEmpty`. */
  predicate IsNullOrEmpty(s: Option<string>) {
    s.None? || s.value == ""
  }

  /** The search matches an event when it occurs in its name, location or
      description. */
  predicate Matches(e: Event, search: string) {
    Contains(e.name, search) || Contains(e.location, search) || Contains(e.description, search)
  }

  /** The matching events, in their original order. */
  function KeepMatching(events: seq<Event>, search: string): (r: seq<Event>)
    ensures forall e :: multiset(r)[e] == if Matches(e, search) then multiset(events)[e] else 0
    ensures forall i :: 0 <= i < |r| ==> r[i] in events && Matches(r[i], search)
    ensures |r| <= |events|
    decreases |events|
  {
    if events == [] then []
    else
      assert events == [events[0]] + events[1..];
      (if Matches(events[0], search) then [events[0]] else []) + KeepMatching(events[1..], search)
  }

  /** The search step: a null or empty search string keeps every event,
      any other keeps exactly the events it matches, as often as they occur. */
  function Filter(events: seq<Event>, searchString: Option<string>): (r: seq<Event>)
    ensures IsNullOrEmpty(searchString) ==> r == events
    ensures !IsNullOrEmpty(searchString) ==>
      && (forall e :: multiset(r)[e] == if Matches(e, searchString.value) then multiset(events)[e] else 0)
      && (forall i :: 0 <= i < |r| ==> Matches(r[i], searchString.value))
    ensures forall i :: 0 <= i < |r| ==> r[i] in events
    ensures |r| <= |events|
  {
    if IsNullOrEmpty(searchString) then events else KeepMatching(events, searchString.value)
  }

  datatype SortKey = NameAscending | NameDescending | DateAscending | DateDescending

  /** The `switch (sortOrder)`: three exact strings select their order and
      anything else, null included, sorts by name ascending. */
  function SortKeyOf(sortOrder: Option<string>): (k: SortKey)
    ensures k == NameDescending <==> sortOrder == Some("name_desc")
    ensures k == DateAscending <==> sortOrder == Some("Date")
    ensures k == DateDescending <==> sortOrder == Some("date_desc")
  {
    if sortOrder == Some("name_desc") then NameDescending
    else if sortOrder == Some("Date") then DateAscending
    else if sortOrder == Some("date_desc") then DateDescending
    else NameAscending
  }

  /** `a` may come before `b` under sort order `k`. */
  predicate InOrder(k: SortKey, a: Event, b: Event) {
    match k
    case NameAscending => LexLessEq(a.name, b.name)
    case NameDescending => LexLessEq(b.name, a.name)
    case DateAscending => a.eventDate <= b.eventDate
    case DateDescending => b.eventDate <= a.eventDate
  }

  lemma InOrderTotal(k: SortKey, a: Event, b: Event)
    ensures InOrder(k, a, b) || InOrder(k, b, a)
  {
    if k.NameAscending? || k.NameDescending? {
      LexTotal(a.name, b.name);
    }
  }

  lemma InOrderTransitive(k: SortKey, a: Event, b: Event, c: Event)
    requires InOrder(k, a, b) && InOrder(k, b, c)
    ensures InOrder(k, a, c)
  {
    match k
    case NameAscending => LexTransitive(a.name, b.name, c.name);
    case NameDescending => LexTransitive(c.name, b.name, a.name);
    case DateAscending =>
    case DateDescending =>
  }

  predicate Sorted(k: SortKey, s: seq<Event>) {
    forall i, j :: 0 <= i < j < |s| ==> InOrder(k, s[i], s[j])
  }

  /** `x` may precede every element of `s`. */
  predicate Precedes(k: SortKey, x: Event, s: seq<Event>) {
    forall j :: 0 <= j < |s| ==> InOrder(k, x, s[j])
  }

  lemma PrecedesSortedHead(k: SortKey, x: Event, s: seq<Event>)
    requires Sorted(k, s) && |s| > 0 && InOrder(k, x, s[0])
    ensures Precedes(k, x, s)
  {
    forall j | 0 < j < |s|
      ensures InOrder(k, x, s[j])
    {
      InOrderTransitive(k, x, s[0], s[j]);
    }
  }

  lemma PrecedesAnyOrder(k: SortKey, x: Event, s: seq<Event>, t: seq<Event>)
    requires Precedes(k, x, s) && multiset(t) <= multiset(s)
    ensures Precedes(k, x, t)
  {
    forall j | 0 <= j < |t|
      ensures InOrder(k, x, t[j])
    {
      assert t[j] in multiset(t);
      assert t[j] in s;
    }
  }

  /** `t` stays sorted with `a` in front of it when `a` precedes all of it. */
  lemma PrependSorted(k: SortKey, a: Event, t: seq<Event>)
    requires Precedes(k, a, t) && Sorted(k, t)
    ensures Sorted(k, [a] + t)
  {
    assert forall i :: 0 < i <= |t| ==> ([a] + t)[i] == t[i - 1];
  }

  /** The step of `Insert` that keeps the head and inserts behind it. */
  lemma InsertBehindHead(k: SortKey, x: Event, s: seq<Event>, rest: seq<Event>)
    requires Sorted(k, s) && |s| > 0 && !InOrder(k, x, s[0])
    requires multiset(rest) == multiset(s[1..]) + multiset{x} && Sorted(k, rest)
    ensures multiset([s[0]] + rest) == multiset(s) + multiset{x}
    ensures Sorted(k, [s[0]] + rest)
  {
    InOrderTotal(k, x, s[0]);
    assert s == [s[0]] + s[1..];
    assert Precedes(k, s[0], s[1..] + [x]);
    assert multiset(rest) == multiset(s[1..] + [x]);
    PrecedesAnyOrder(k, s[0], s[1..] + [x], rest);
    PrependSorted(k, s[0], rest);
  }

  /** `x` put into its place in the sorted `s`. */
  function Insert(k: SortKey, x: Event, s: seq<Event>): (r: seq<Event>)
    requires Sorted(k, s)
    ensures multiset(r) == multiset(s) + multiset{x}
    ensures Sorted(k, r)
    decreases |s|
  {
    if s == [] then [x]
    else if InOrder(k, x, s[0]) then
      PrecedesSortedHead(k, x, s);
      PrependSorted(k, x, s);
      [x] + s
    else
      var rest := Insert(k, x, s[1..]);
      InsertBehindHead(k, x, s, rest);
      [s[0]] + rest
  }

  /** The sort step: the same events, ordered by `k`. */
  function SortBy(k: SortKey, s: seq<Event>): (r: seq<Event>)
    ensures multiset(r) == multiset(s)
    ensures Sorted(k, r)
    decreases |s|
  {
    if s == [] then []
    else
      assert s == [s[0]] + s[1..];
      Insert(k, s[0], SortBy(k, s[1..]))
  }

  /** No two different events of `m` are level under `k`. Only then does an
      `ORDER BY` on the key alone fix one order of the rows. */
  predicate NoTies(k: SortKey, m: multiset<Event>) {
    forall x, y :: x in m && y in m && InOrder(k, x, y) && InOrder(k, y, x) ==> x == y
  }

  /** The first element of a sorted list may precede any of its elements. */
  lemma SortedHeadFirst(k: SortKey, a: seq<Event>, x: Event)
    requires Sorted(k, a) && x in a
    ensures InOrder(k, a[0], x)
  {
    var i :| 0 <= i < |a| && a[i] == x;
    if i == 0 {
      InOrderTotal(k, x, x);
    }
  }

  /** Without ties, two sorted permutations start with the same event. */
  lemma SortedPermutationSameHead(k: SortKey, a: seq<Event>, b: seq<Event>)
    requires Sorted(k, a) && Sorted(k, b) && multiset(a) == multiset(b) && a != []
    requires NoTies(k, multiset(a))
    ensures b != [] && a[0] == b[0]
  {
    assert a[0] in multiset(b);
    assert b[0] in multiset(a);
    SortedHeadFirst(k, a, b[0]);
    SortedHeadFirst(k, b, a[0]);
  }

  /** The tail of a sorted list is sorted and holds the other events. */
  lemma SortedTail(k: SortKey, a: seq<Event>)
    requires Sorted(k, a) && a != []
    ensures Sorted(k, a[1..])
    ensures multiset(a) == multiset{a[0]} + multiset(a[1..])
  {
    assert a == [a[0]] + a[1..];
    SortedSlice(k, a, 1, |a|);
    assert a[1..|a|] == a[1..];
  }

  /** Fewer events have no more ties. */
  lemma NoTiesSubset(k: SortKey, m: multiset<Event>, n: multiset<Event>)
    requires NoTies(k, m) && n <= m
    ensures NoTies(k, n)
  {
  }

  /** Without ties there is one sorted order: any two sorted permutations of
      the same events are the same list. */
  lemma {:induction false} SortedPermutationUnique(k: SortKey, a: seq<Event>, b: seq<Event>)
    requires Sorted(k, a) && Sorted(k, b) && multiset(a) == multiset(b)
    requires NoTies(k, multiset(a))
    ensures a == b
    decreases |a|
  {
    if a == [] {
      assert |b| == |multiset(b)| == 0;
    } else {
      SortedPermutationSameHead(k, a, b);
      SortedTail(k, a);
      SortedTail(k, b);
      NoTiesSubset(k, multiset(a), multiset(a[1..]));
      SortedPermutationUnique(k, a[1..], b[1..]);
      assert a == [a[0]] + a[1..] && b == [b[0]] + b[1..];
    }
  }

  /** The first page whose offset `(page - 1) * PageSize` still fits an `int`. */
  const LastUnwrappedPage: int := IntMax / PageSize + 1

  /** `(page - 1) * PageSize` evaluated in unchecked 32-bit arithmetic. */
  function SkipCount(page: Int32): (n: Int32)
    ensures 1 <= page <= LastUnwrappedPage ==> n == (page - 1) * PageSize
  {
    Wrap32((page - 1) * PageSize)
  }

  /** `Skip(n)`, sent to the database as `OFFSET n ROWS`: the events after
      the first `n`, none when `n` reaches past the end. The database
      refuses a negative offset, so `n` is a `nat` here and `Index` reports
      the negative case as an error. */
  function Skip(s: seq<Event>, n: nat): (r: seq<Event>)
    ensures |r| == |s| - Min(n, |s|)
    ensures r == s[|s| - |r|..]
  {
    if n >= |s| then [] else s[n..]
  }

  /** `Take(n)`, sent as `FETCH NEXT n ROWS ONLY`: the first `n` events, all
      of them when there are fewer. */
  function Take(s: seq<Event>, n: nat): (r: seq<Event>)
    ensures |r| == Min(n, |s|)
    ensures r <= s
  {
    if n >= |s| then s else s[..n]
  }

  /** `Take` and `Skip` with the same count split a list in two. */
  lemma TakeSkipSplit(s: seq<Event>, n: nat)
    ensures Take(s, n) + Skip(s, n) == s
  {
  }

  /** Where in a list of `count` events page `page` starts: at
      `(page - 1) * PageSize`, or at the end of a shorter list, whenever
      that offset fits an `int`. */
  function PageStart(count: nat, page: Int32): (a: nat)
    requires SkipCount(page) >= 0
    ensures a <= count
    ensures 1 <= page <= LastUnwrappedPage ==> a == Min((page - 1) * PageSize, count)
  {
    Min(SkipCount(page), count)
  }

  /** The pagination step: page `page` of `items` is the run of at most
      `PageSize` events starting at `PageStart`, as many as remain. */
  function PageOf(items: seq<Event>, page: Int32): (r: seq<Event>)
    requires SkipCount(page) >= 0
    ensures |r| == Min(PageSize, |items| - PageStart(|items|, page))
    ensures r == items[PageStart(|items|, page)..PageStart(|items|, page) + |r|]
  {
    Take(Skip(items, SkipCount(page)), PageSize)
  }

  /** `(int)Math.Ceiling(totalCount / (double)PageSize)`: the number of pages
      `count` events fill. */
  function TotalPages(count: nat): (r: nat)
    ensures count == 0 ==> r == 0
    ensures count > 0 ==> (r - 1) * PageSize < count <= r * PageSize
  {
    (count + PageSize - 1) / PageSize
  }

  /** The pages partition the list: event `k` is entry `k % 10` of page
      `k / 10 + 1`, a page that exists. */
  lemma PagesCoverList(items: seq<Event>, k: nat)
    requires |items| <= IntMax
    requires k < |items|
    ensures var page := k / PageSize + 1;
      && 1 <= page <= TotalPages(|items|)
      && k % PageSize < |PageOf(items, page)|
      && PageOf(items, page)[k % PageSize] == items[k]
  {
    var page := k / PageSize + 1;
    assert (page - 1) * PageSize + k % PageSize == k;
    var a := PageStart(|items|, page);
    assert a == (page - 1) * PageSize;
  }

  /** Pages after the last one are empty. */
  lemma PagesPastTheLastAreEmpty(items: seq<Event>, page: Int32)
    requires TotalPages(|items|) < page <= LastUnwrappedPage
    ensures SkipCount(page) >= 0 && PageOf(items, page) == []
  {
    assert |items| <= (page - 1) * PageSize;
  }

  lemma SortedSlice(k: SortKey, s: seq<Event>, a: nat, b: nat)
    requires Sorted(k, s) && a <= b <= |s|
    ensures Sorted(k, s[a..b])
  {
    assert forall i :: 0 <= i < b - a ==> s[a..b][i] == s[a + i];
  }

  /** A page of a sorted permutation of a list is sorted and holds only
      events of the list. */
  lemma PageOfSortedList(k: SortKey, list: seq<Event>, sorted: seq<Event>, page: Int32)
    requires SkipCount(page) >= 0
    requires Sorted(k, sorted) && multiset(sorted) == multiset(list)
    ensures var items := PageOf(sorted, page);
      && Sorted(k, items)
      && forall i :: 0 <= i < |items| ==> items[i] in list
  {
    var items := PageOf(sorted, page);
    var a := PageStart(|sorted|, page);
    SortedSlice(k, sorted, a, a + |items|);
    forall i | 0 <= i < |items|
      ensures items[i] in list
    {
      assert items[i] in multiset(sorted);
    }
  }

  /** The `ViewData["NameSortParm"]` link: descending name order exactly
      when no sort order was given, else the default order. */
  function NameSortParm(sortOrder: Option<string>): (r: string)
    ensures r == "name_desc" <==> IsNullOrEmpty(sortOrder)
    ensures r == "name_desc" || r == ""
  {
    if IsNullOrEmpty(sortOrder) then "name_desc" else ""
  }

  /** The `ViewData["DateSortParm"]` link: descending dates exactly when the
      list is sorted by ascending date, else ascending dates. */
  function DateSortParm(sortOrder: Option<string>): (r: string)
    ensures r == "date_desc" <==> sortOrder == Some("Date")
    ensures r == "Date" || r == "date_desc"
  {
    if sortOrder == Some("Date") then "date_desc" else "Date"
  }

  /** Following a link reverses the order it names: from the default list
      the name link sorts by descending name and from there back to
      ascending; the date link flips ascending dates to descending and
      turns every other order into ascending dates. */
  lemma SortLinksToggle(sortOrder: Option<string>)
    ensures IsNullOrEmpty(sortOrder) ==>
      SortKeyOf(sortOrder) == NameAscending && SortKeyOf(Some(NameSortParm(sortOrder))) == NameDescending
    ensures SortKeyOf(sortOrder) == NameDescending ==> SortKeyOf(Some(NameSortParm(sortOrder))) == NameAscending
    ensures SortKeyOf(sortOrder) == DateAscending ==> SortKeyOf(Some(DateSortParm(sortOrder))) == DateDescending
    ensures SortKeyOf(sortOrder) != DateAscending ==> SortKeyOf(Some(DateSortParm(sortOrder))) == DateAscending
  {
  }

  /** What `Index` hands to its view. */
  datatype IndexView = IndexView(
    items: seq<Event>,
    currentPage: Int32,
    totalPages: nat,
    totalCount: nat,
    nameSortParm: string,
    dateSortParm: string,
    currentFilter: Option<string>,
    currentSort: Option<string>)

  /** The query fails: SQL Server refuses the negative `OFFSET` that a
      wrapped or non-positive page number produces. */
  datatype IndexError = NegativeOffset(offset: int)

  /** `Index`: filter, sort, count and cut out the requested page. */
  function Index(events: seq<Event>, searchString: Option<string>, sortOrder: Option<string>, page: Int32): (r: Result<IndexView, IndexError>)
    ensures r.Err? <==> SkipCount(page) < 0
    ensures r.Err? ==> r.error == NegativeOffset(SkipCount(page))
    ensures r.Ok? ==>
      var v := r.value;
      && |v.items| <= PageSize
      && (forall i :: 0 <= i < |v.items| ==> v.items[i] in events)
      && (!IsNullOrEmpty(searchString) ==>
            forall i :: 0 <= i < |v.items| ==> Matches(v.items[i], searchString.value))
      && Sorted(SortKeyOf(sortOrder), v.items)
      && v.totalCount == |Filter(events, searchString)| <= |events|
      && (IsNullOrEmpty(searchString) ==> v.totalCount == |events|)
      && (v.totalCount == 0 <==> v.totalPages == 0)
      && (v.totalCount > 0 ==> (v.totalPages - 1) * PageSize < v.totalCount <= v.totalPages * PageSize)
      && v.currentPage == page && v.currentFilter == searchString && v.currentSort == sortOrder
      && v.nameSortParm == NameSortParm(sortOrder) && v.dateSortParm == DateSortParm(sortOrder)
    ensures r.Ok? ==>
      |r.value.items| == Min(PageSize, r.value.totalCount - PageStart(r.value.totalCount, page))
    ensures r.Ok? ==>
      exists s :: && Sorted(SortKeyOf(sortOrder), s)
                  && multiset(s) == multiset(Filter(events, searchString))
                  && r.value.items == PageOf(s, page)
  {
    if SkipCount(page) < 0 then Err(NegativeOffset(SkipCount(page)))
    else
      var filtered := Filter(events, searchString);
      var sorted := SortBy(SortKeyOf(sortOrder), filtered);
      var items := PageOf(sorted, page);
      PageOfSortedList(SortKeyOf(sortOrder), filtered, sorted, page);
      Ok(IndexView(
        items, page, TotalPages(|filtered|), |filtered|,
        NameSortParm(sortOrder), DateSortParm(sortOrder), searchString, sortOrder))
  }

  /** Which page numbers the database refuses: every page from 1 to the last
      one whose offset fits an `int` is served; the pages from -214748363 to
      0 give a negative offset directly, and those from 214748366 to
      429496730 give one by 32-bit overflow. */
  lemma OffsetErrorPages(events: seq<Event>, searchString: Option<string>, sortOrder: Option<string>, page: Int32)
    ensures 1 <= page <= LastUnwrappedPage ==> Index(events, searchString, sortOrder, page).Ok?
    ensures -214748363 <= page <= 0 ==> Index(events, searchString, sortOrder, page).Err?
    ensures LastUnwrappedPage < page <= 429496730 ==> Index(events, searchString, sortOrder, page).Err?
  {
  }

  /** A served page is that page of the model's sorted search result. */
  lemma IndexPage(events: seq<Event>, searchString: Option<string>, sortOrder: Option<string>, page: Int32)
    requires SkipCount(page) >= 0
    ensures Index(events, searchString, sortOrder, page).Ok?
    ensures Index(events, searchString, sortOrder, page).value.items
         == PageOf(SortBy(SortKeyOf(sortOrder), Filter(events, searchString)), page)
  {
  }

  /** Every event of a list is on some page from 1 to the page count. */
  lemma PageHolding(items: seq<Event>, e: Event) returns (page: Int32)
    requires |items| <= IntMax
    requires e in items
    ensures 1 <= page <= TotalPages(|items|)
    ensures SkipCount(page) >= 0 && e in PageOf(items, page)
  {
    var j :| 0 <= j < |items| && items[j] == e;
    PagesCoverList(items, j);
    page := j / PageSize + 1;
  }

  /** Every event the search keeps is listed on some page from 1 to the page
      count. When no two matches tie, that page holds it in every order the
      database may use, so separate page requests together list it. */
  lemma {:induction false} IndexListsEveryMatch(events: seq<Event>, searchString: Option<string>, sortOrder: Option<string>, e: Event)
    requires |events| <= IntMax
    requires e in Filter(events, searchString)
    ensures exists page: Int32 ::
      && 1 <= page <= TotalPages(|Filter(events, searchString)|)
      && Index(events, searchString, sortOrder, page).Ok?
      && e in Index(events, searchString, sortOrder, page).value.items
      && (NoTies(SortKeyOf(sortOrder), multiset(Filter(events, searchString))) ==>
            forall s :: Sorted(SortKeyOf(sortOrder), s) && multiset(s) == multiset(Filter(events, searchString)) ==>
              e in PageOf(s, page))
  {
    var k := SortKeyOf(sortOrder);
    var filtered := Filter(events, searchString);
    var sorted := SortBy(k, filtered);
    assert |sorted| == |multiset(sorted)| == |multiset(filtered)| == |filtered|;
    assert e in multiset(sorted);
    var page := PageHolding(sorted, e);
    IndexPage(events, searchString, sortOrder, page);
    if NoTies(k, multiset(filtered)) {
      forall s | Sorted(k, s) && multiset(s) == multiset(filtered)
        ensures e in PageOf(s, page)
      {
        SortedPermutationUnique(k, s, sorted);
      }
    }
  }

  /** With ties, separate page requests can miss an event. Eleven events on
      one date, sorted by date: listing them as stored and listing the last
      one first are both sorted orders of the same events, and the last
      event is neither on page 1 of the first order nor on page 2 of the
      second. */
  lemma TiesCanHideAnEvent(events: seq<Event>)
    requires |events| == 11
    requires forall i :: 0 <= i < |events| ==> events[i].eventDate == events[0].eventDate
    requires events[10] !in events[..10]
    ensures var moved := [events[10]] + events[..10];
      && Sorted(DateAscending, events) && Sorted(DateAscending, moved)
      && multiset(moved) == multiset(events)
      && events[10] !in PageOf(events, 1)
      && events[10] !in PageOf(moved, 2)
  {
    var moved := [events[10]] + events[..10];
    assert events == events[..10] + [events[10]];
    assert PageOf(events, 1) == events[..10];
    assert PageOf(moved, 2) == [events[9]];
  }
}

=== FILE: event_model.dfy ===
/** The `Event` entity and its data annotations. */
module EventModel {
  import opened Wrappers
  import opened Primitives

  const NameMaxLength: nat := 200
  const DescriptionMaxLength: nat := 2000
  const LocationMaxLength: nat := 200
  const ImagePathMaxLength: nat := 500
  const CreatedByMaxLength: nat := 450

  /** Dates and times of day are clock ticks; `Price` is an exact decimal.
      The nullable columns `ImagePath`, `UpdatedDate` and `CreatedBy` are
      options. */
  datatype Event = Event(
    id: int,
    name: string,
    description: string,
    eventDate: int,
    eventTime: int,
    location: string,
    capacity: int,
    price: real,
    imagePath: Option<string>,
    isActive: bool,
    createdDate: int,
    updatedDate: Option<int>,
    createdBy: Option<string>)

  // The constraints below are declared identically on `Event` and on the
  // form model `EventViewModel`, so both validity predicates use them.

  predicate ValidName(s: string) {
    IsRequiredText(s) && |s| <= NameMaxLength
  }

  predicate ValidDescription(s: string) {
    IsRequiredText(s) && |s| <= DescriptionMaxLength
  }

  predicate ValidLocation(s: string) {
    IsRequiredText(s) && |s| <= LocationMaxLength
  }

  /** `[Range(1, int.MaxValue)]` on an `int`. */
  predicate ValidCapacity(c: int) {
    1 <= c <= IntMax
  }

  /** `[Range(0, double.MaxValue)]` on a `decimal`; every decimal lies below
      `double.MaxValue`, so only the lower bound constrains. */
  predicate ValidPrice(p: real) {
    0.0 <= p
  }

  /** The data annotations on `Event`. `[Required]` on the date and time
      fields constrains nothing, since those are value types. */
  predicate ValidEvent(e: Event) {
    && ValidName(e.name)
    && ValidDescription(e.description)
    && ValidLocation(e.location)
    && ValidCapacity(e.capacity)
    && ValidPrice(e.price)
    && FitsLength(e.imagePath, ImagePathMaxLength)
    && FitsLength(e.createdBy, CreatedByMaxLength)
  }

  /** `new Event()` at clock time `now`: every unset field holds its C#
      default (empty strings, zero, `DateTime.MinValue` as tick 0, null). */
  function NewEvent(now: int): (e: Event)
    ensures e.isActive && e.createdDate == now
    ensures e.imagePath.None? && e.updatedDate.None? && e.createdBy.None?
    ensures !ValidCapacity(e.capacity) && !ValidEvent(e)
  {
    Event(0, "", "", 0, 0, "", 0, 0.0, None, true, now, None, None)
  }

  /** `FirstOrDefault(e => e.Id == id)` as an index: the first event with
      that key, if any. */
  function IndexOfEvent(events: seq<Event>, id: int): (r: Option<nat>)
    ensures r.None? <==> forall i :: 0 <= i < |events| ==> events[i].id != id
    ensures r.Some? ==> r.value < |events| && events[r.value].id == id
    ensures r.Some? ==> forall i :: 0 <= i < r.value ==> events[i].id != id
  {
    if events == [] then None
    else if events[0].id == id then Some(0)
    else match IndexOfEvent(events[1..], id)
      case None => None
      case Some(k) => Some(k + 1)
  }

  /** `FirstOrDefault(e => e.Id == id)`. */
  function FindEvent(events: seq<Event>, id: int): (r: Option<Event>)
    ensures r.None? <==> forall i :: 0 <= i < |events| ==> events[i].id != id
    ensures r.Some? ==> r.value in events && r.value.id == id
  {
    match IndexOfEvent(events, id)
    case None => None
    case Some(k) => Some(events[k])
  }

  /** The `Id` column is the table's primary key. */
  predicate UniqueIds(events: seq<Event>) {
    forall i, j :: 0 <= i < j < |events| ==> events[i].id != events[j].id
  }

  /** With unique keys, looking up an event's own key finds that event. */
  lemma {:induction false} FindOwnKey(events: seq<Event>, k: nat)
    requires UniqueIds(events) && k < |events|
    ensures IndexOfEvent(events, events[k].id) == Some(k)
    ensures FindEvent(events, events[k].id) == Some(events[k])
  {
  }

  function EventIds(events: seq<Event>): (ids: seq<int>)
    ensures |ids| == |events|
    ensures forall i :: 0 <= i < |events| ==> ids[i] == events[i].id
  {
    seq(|events|, i requires 0 <= i < |events| => events[i].id)
  }
}

=== FILE: image_upload.dfy ===
/** The checks `SaveImageAsync` makes before it stores an uploaded event
    image, and the path it stores the image under. */
module ImageUpload {
  import opened Wrappers
  import opened EventModel
  import opened EventFormModel

  const AllowedExtensions: set<string> := {".jpg", ".jpeg", ".png", ".gif", ".webp"}

  /** 5 MB. */
  const MaxImageBytes: int := 5 * 1024 * 1024

  const UploadFolder: string := "/uploads/events/"

  /** `Guid.NewGuid().ToString()`: 32 hex digits and four hyphens. */
  type GuidText = s: string | |s| == 36 witness "00000000-0000-0000-0000-000000000000"

  datatype UploadError = InvalidFileType | FileTooLarge

  /** The directory separators of .NET on Windows. */
  predicate IsDirectorySeparator(c: char) {
    c == '/' || c == '\\'
  }

  /** A character that can stand in an extension after its dot. */
  predicate IsPlain(c: char) {
    c != '.' && !IsDirectorySeparator(c)
  }

  /** `r` is empty, or a dot and at least one plain character ending `path`. */
  predicate IsExtensionOf(r: string, path: string) {
    r == "" ||
    (&& 2 <= |r| <= |path|
     && r == path[|path| - |r|..]
     && r[0] == '.'
     && forall j :: 1 <= j < |r| ==> IsPlain(r[j]))
  }

  /** The backward scan of `Path.GetExtension` at index `i - 1`, everything
      after it already known to be plain. */
  function ExtensionScan(path: string, i: nat): (r: string)
    requires i <= |path|
    requires forall j :: i <= j < |path| ==> IsPlain(path[j])
    ensures IsExtensionOf(r, path)
    decreases i
  {
    if i == 0 then ""
    else if path[i - 1] == '.' then (if i == |path| then "" else path[i - 1..])
    else if IsDirectorySeparator(path[i - 1]) then ""
    else ExtensionScan(path, i - 1)
  }

  /** `Path.GetExtension`: from the last dot of the file name to its end,
      or empty when there is no dot after the last directory separator or
      the dot ends the name. */
  function ExtensionOf(path: string): (r: string)
    ensures IsExtensionOf(r, path)
  {
    ExtensionScan(path, |path|)
  }

  lemma {:induction false} ScanSkipsPlain(path: string, m: nat, i: nat)
    requires m <= i <= |path|
    requires forall j :: m <= j < |path| ==> IsPlain(path[j])
    ensures ExtensionScan(path, i) == ExtensionScan(path, m)
    decreases i
  {
    if i > m {
      ScanSkipsPlain(path, m, i - 1);
    }
  }

  /** The partner of `ExtensionOf`: a name that ends in a dot followed by
      plain characters has exactly that extension. */
  lemma {:induction false} ExtensionOfNamedFile(stem: string, ext: string)
    requires |ext| >= 1 && forall j :: 0 <= j < |ext| ==> IsPlain(ext[j])
    ensures ExtensionOf(stem + "." + ext) == "." + ext
  {
    var path := stem + "." + ext;
    assert forall j :: |stem| + 1 <= j < |path| ==> path[j] == ext[j - |stem| - 1];
    ScanSkipsPlain(path, |stem| + 1, |path|);
    assert path[|stem|] == '.';
    assert path[|stem|..] == "." + ext;
  }

  function LowerChar(c: char): char {
    if 'A' <= c <= 'Z' then (c as int + 32) as char else c
  }

  /** `ToLowerInvariant`, on ASCII letters. */
  function ToLowerInvariant(s: string): (r: string)
    ensures |r| == |s|
    ensures forall i :: 0 <= i < |s| ==> r[i] == LowerChar(s[i])
  {
    seq(|s|, i requires 0 <= i < |s| => LowerChar(s[i]))
  }

  /** The gate of `SaveImageAsync` and the path it returns. An allowed
      extension and a size within the limit pass; the type is checked
      first, so a file failing both is reported as of the wrong type. */
  function SaveImage(file: Upload, guid: GuidText): (r: Result<string, UploadError>)
    ensures r.Ok? <==>
      ToLowerInvariant(ExtensionOf(file.fileName)) in AllowedExtensions && file.length <= MaxImageBytes
    ensures r == Err(InvalidFileType) <==> ToLowerInvariant(ExtensionOf(file.fileName)) !in AllowedExtensions
    ensures r.Ok? ==>
      && r.value == UploadFolder + guid + ToLowerInvariant(ExtensionOf(file.fileName))
      && |r.value| <= ImagePathMaxLength
  {
    var extension := ToLowerInvariant(ExtensionOf(file.fileName));
    if extension !in AllowedExtensions then Err(InvalidFileType)
    else if file.length > MaxImageBytes then Err(FileTooLarge)
    else Ok(UploadFolder + guid + extension)
  }

  /** By file name: `stem.ext` passes the gate exactly when the lower-cased
      `.ext` is allowed and the file is at most 5 MB. */
  lemma ImageGateByName(stem: string, ext: string, length: int, guid: GuidText)
    requires |ext| >= 1 && forall j :: 0 <= j < |ext| ==> IsPlain(ext[j])
    ensures SaveImage(Upload(stem + "." + ext, length), guid).Ok?
        <==> "." + ToLowerInvariant(ext) in AllowedExtensions && length <= MaxImageBytes
  {
    ExtensionOfNamedFile(stem, ext);
    assert ToLowerInvariant("." + ext) == "." + ToLowerInvariant(ext);
  }
}

=== FILE: primitives.dfy ===
/** Machine and library facts the C# code relies on: 32-bit `int`, the
    `[Required]` and `[StringLength]` data annotations, `string.Contains`,
    ordinal string ordering and identity-column key assignment. */
module Primitives {
  import opened Wrappers

  const IntMin: int := -0x8000_0000
  const IntMax: int := 0x7fff_ffff

  /** C#'s `int`. */
  type Int32 = x: int | IntMin <= x <= IntMax

  /** Unchecked 32-bit arithmetic: the mathematical value reduced into the
      `int` range modulo 2^32, as C# does when an `int` expression overflows. */
  function Wrap32(x: int): (r: Int32)
    ensures (r - x) % 0x1_0000_0000 == 0
    ensures IntMin <= x <= IntMax ==> r == x
    ensures IntMax < x <= IntMax + 0x1_0000_0000 ==> r == x - 0x1_0000_0000
  {
    (x - IntMin) % 0x1_0000_0000 + IntMin
  }

  function Min(a: int, b: int): int {
    if a <= b then a else b
  }

  /** `char.IsWhiteSpace`: the Unicode space, line and paragraph separators
      together with U+0009..U+000D, U+0085 and U+00A0. */
  predicate IsWhiteSpace(c: char) {
    || c == ' '
    || '\t' <= c <= '\r'
    || c == '\U{0085}'
    || c == '\U{00A0}'
    || c == '\U{1680}'
    || '\U{2000}' <= c <= '\U{200A}'
    || c == '\U{2028}'
    || c == '\U{2029}'
    || c == '\U{202F}'
    || c == '\U{205F}'
    || c == '\U{3000}'
  }

  /** `[Required]` on a string property: a null, empty or all-white-space
      value fails. A null string is represented by the empty string. */
  predicate IsRequiredText(s: string) {
    exists i :: 0 <= i < |s| && !IsWhiteSpace(s[i])
  }

  /** `[StringLength(max)]` / `[MaxLength(max)]` on a nullable string: a null
      value passes, any other value passes when it is at most `max` long. */
  predicate FitsLength(s: Option<string>, max: nat) {
    s.None? || |s.value| <= max
  }

  /** Ordinal `string.Contains`: `sub` occurs somewhere in `s`. */
  predicate Contains(s: string, sub: string)
    decreases |s|
  {
    sub <= s || (|s| > 0 && Contains(s[1..], sub))
  }

  /** `sub` sits at position `i` of `s`. */
  predicate OccursAt(s: string, sub: string, i: int) {
    0 <= i <= |s| - |sub| && s[i..i + |sub|] == sub
  }

  /** `Contains` finds `sub` exactly when it sits at some position of `s`. */
  lemma {:induction false} ContainsAt(s: string, sub: string)
    ensures Contains(s, sub) <==> exists i :: OccursAt(s, sub, i)
    decreases |s|
  {
    if sub <= s {
      assert OccursAt(s, sub, 0);
    } else if |s| > 0 {
      ContainsAt(s[1..], sub);
      if Contains(s[1..], sub) {
        var i :| OccursAt(s[1..], sub, i);
        assert s[1..][i..i + |sub|] == s[i + 1..i + 1 + |sub|];
        assert OccursAt(s, sub, i + 1);
      }
      if exists i :: OccursAt(s, sub, i) {
        var i :| OccursAt(s, sub, i);
        if i > 0 {
          assert s[1..][i - 1..i - 1 + |sub|] == s[i..i + |sub|];
          assert OccursAt(s[1..], sub, i - 1);
        }
      }
    }
  }

  /** Ordinal comparison of strings (`string.CompareOrdinal(a, b) <= 0`):
      lexicographic by character code, a proper prefix sorting first. */
  predicate LexLessEq(a: string, b: string)
    decreases |a|
  {
    if a == [] then true
    else if b == [] then false
    else if a[0] != b[0] then a[0] < b[0]
    else LexLessEq(a[1..], b[1..])
  }

  lemma {:induction false} LexTotal(a: string, b: string)
    ensures LexLessEq(a, b) || LexLessEq(b, a)
    decreases |a|
  {
    if a != [] && b != [] && a[0] == b[0] {
      LexTotal(a[1..], b[1..]);
    }
  }

  lemma {:induction false} LexTransitive(a: string, b: string, c: string)
    requires LexLessEq(a, b) && LexLessEq(b, c)
    ensures LexLessEq(a, c)
    decreases |a|
  {
    if a != [] && b != [] && c != [] && a[0] == b[0] && b[0] == c[0] {
      LexTransitive(a[1..], b[1..], c[1..]);
    }
  }

  /** The largest of `ids`, or 0 for none. */
  function MaxId(ids: seq<int>): (m: int)
    ensures forall i :: 0 <= i < |ids| ==> ids[i] <= m
    ensures 0 <= m
  {
    if ids == [] then 0
    else
      var rest := MaxId(ids[1..]);
      if ids[0] > rest then ids[0] else rest
  }

  /** The key an identity column hands out next: positive and different
      from every key already in the table. */
  function FreshId(ids: seq<int>): (r: int)
    ensures r !in ids
    ensures 1 <= r
  {
    MaxId(ids) + 1
  }
}

=== FILE: wrappers.dfy ===
/** Optional values and success-or-error results.
    `Option` stands for a C# reference or nullable value that may be null;
    `Result` for an operation that either returns a value or throws. */
module Wrappers {

  datatype Option<+T> = None | Some(value: T)

  datatype Result<+T, +E> = Ok(value: T) | Err(error: E)
}
